=== FILE: README.md ===
# OLS surface conversion and viewer layers, in Dafny

This project models the decision logic of a small airport-obstacle
visualisation repository. The repository converts Obstacle Limitation
Surfaces (OLS) from shapefiles to GeoJSON and shows them in a Cesium 3D
viewer. Three pieces are modelled:

- **The surface converters** (`convert_takeoff_conical.py`,
  `convert_horizontal_surface.py`). A dataset is a sequence of features,
  each a geometry plus a map from column name to value, with one optional
  CRS tag for the whole table (`GeoData`). The pipeline has four steps.
  Load the source (`FileStore.ReadFile`). Bring the dataset to WGS84
  (`CrsNormalizer.Normalize`). Fill in `height` and the four descriptive
  tags (`MetadataTagger.Tag`). Write GeoJSON (`FileStore.WriteGeoJson`).
  Each converter function returns a boolean, and each script's closing
  message is chosen from those booleans (`TakeoffConical`,
  `HorizontalSurface`). The filesystem is a value: files, directories and
  read-only paths. The reprojection is an opaque partial function applied
  to every vertex (`CrsNormalizer.Projection`).
- **The viewer's layer state** (`surface_loader.js`). This covers the
  visibility map, the entities grouped by category and the toggle state
  machine. It also covers the road colour and width tables, the statistics,
  the capped building and road loaders, and the OLS loader's geometry-type
  filter (`SurfaceLoader`). An entity is a record of name, `show` flag,
  colour and shape. `fetch` is a map from URL to the parsed features.
- **JavaScript string behaviour** the loader relies on (`JsText`):
  `includes`, truthiness and template rendering of properties that may be
  `null` or absent, and decimal rendering of indices.

Two facts about the code shape the model:

- The output directory is created *outside* the `try` blocks
  (`convert_takeoff_conical.py:20`, `convert_horizontal_surface.py:29`).
  If that fails, the exception escapes the converter function. This
  happens when a regular file is in the way, or when a directory has to be
  created inside a read-only one. For the takeoff/conical script this ends
  the run before the conical conversion is attempted. This is modelled as
  `Conversion.Raised` and `TakeoffConical.ScriptRun.Crashed`.
- The conical conversion creates no directory. Its write fails when
  `data/processed` does not exist yet (`TakeoffConical.ConvertConical`).

One behaviour of the viewer is worth knowing. The buildings and roads
toggles select entities by *substring* of the entity name. A road named
"Building Lane" (entity name "Road: Building Lane") is therefore switched by
the buildings toggle. `SurfaceLoader.BuildingsToggleReachesRoadNamedBuilding`
proves this on that input.

## Model

| member | source | states |
|---|---|---|
| `GeoData.Unique` | convert_takeoff_conical.py:59 | `geom_type.unique()` lists every geometry type that occurs, each exactly once, in order of first occurrence |
| `CrsNormalizer.ProjectFeatures` | convert_takeoff_conical.py:35 | `to_crs` succeeds exactly when every vertex of every row has an image; each row keeps its attributes and gets its transformed geometry |
| `CrsNormalizer.Normalize` | convert_takeoff_conical.py:33-35 | an EPSG:4326 dataset is returned unchanged; a dataset without a CRS fails as undefined; otherwise success means every row is projectable, and the result is in WGS84 with the same rows, columns and attribute values, each geometry replaced by its image under the transform (the features are exactly the transformed features) |
| `CrsNormalizer.NormalizeIdempotent` | convert_takeoff_conical.py:86-88 | normalising a normalised dataset changes nothing |
| `MetadataTagger.Tag` | convert_takeoff_conical.py:37-47 | row count, geometries and CRS are kept; without a `height` column every row gets the default; an existing `height` value, `Null` included, is kept; the four descriptive columns hold the literals whatever they held; every other value is untouched; well-formedness is preserved |
| `MetadataTagger.TagIdempotent` | convert_takeoff_conical.py:90-100 | tagging a tagged dataset again gives the same dataset |
| `MetadataTagger.NullHeightIsNotFilled` | convert_takeoff_conical.py:91 | the height test is on the column: a missing value in an existing column stays missing |
| `FileStore.ReadFile` | convert_takeoff_conical.py:26 | reading succeeds exactly for a readable file; a missing or unreadable path is a load failure; a GeoJSON file reads back in WGS84 |
| `FileStore.MakeDirs` | convert_takeoff_conical.py:20 | creation succeeds exactly when every directory of the chain already exists, or has no regular file in its way and a parent that is not read-only; files and read-only paths are unchanged; the only new directories come from the chain; on success all of them exist |
| `FileStore.WriteGeoJson` | convert_takeoff_conical.py:51 | the write succeeds exactly when the parent directory exists, the target is neither a directory nor read-only, and a new file's directory is not read-only; only the target file changes; a failed write changes nothing |
| `FileStore.WriteThenRead` | convert_takeoff_conical.py:51 | a WGS84 dataset written as GeoJSON reads back as the same dataset |
| `SurfacePipeline.LoadNormalizeSave` | convert_takeoff_conical.py:26-51 | the steps succeed exactly when the source converts and the output is writable; a load failure comes first; on success every saved geometry is the loaded one (already WGS84) or its transformed image, the attributes are tagged or passed through, and the disk differs only at the output |
| `TakeoffConical.ConvertTakeoff` | convert_takeoff_conical.py:12-66 | the function raises exactly when `data` or `data/processed` can be neither found nor created; when it returns, the output directory exists, even on failure; success exactly when the source converts and the output is writable; on failure no file changes; on success the reported count equals the loaded count, and the file holds the loaded rows with their geometries brought to WGS84, height 100 where no column existed and the takeoff literals |
| `TakeoffConical.ConvertConical` | convert_takeoff_conical.py:68-119 | always returns; creates no directory; success exactly when the source converts, `data/processed` exists and the output is writable; the same reporting, geometry and tagging guarantees as takeoff, with height 200 and the conical literals |
| `TakeoffConical.Summarize` | convert_takeoff_conical.py:57-60 | the summary counts the saved rows and lists every geometry type among them, each exactly once |
| `TakeoffConical.Judge` | convert_takeoff_conical.py:128-136 | the verdict is one of four outcomes and records both booleans exactly |
| `TakeoffConical.RunScript` | convert_takeoff_conical.py:121-136 | the script crashes exactly when the output directory can be neither found nor created (a file in the way, or a read-only parent); otherwise the takeoff verdict is takeoff's boolean, and the conical verdict depends only on the starting disk, whatever takeoff returned; nothing written is rolled back: a successful takeoff's file is still there at the end, a successful conical conversion leaves its tagged file, every other file is kept and no other file appears |
| `TakeoffConical.MissingTakeoffSourceStillConvertsConical` | convert_takeoff_conical.py:125-134 | with the takeoff source missing and the conical one valid, the verdict is conical-only, the conical file is written and no takeoff file appears |
| `TakeoffConical.ThreeUtmPolygonsScenario` | convert_takeoff_conical.py:26-62 | three projectable UTM polygons with no height column give three features with height 100 and the takeoff literals, and the report names only polygons |
| `TakeoffConical.ReadOnlyDataDirCrashes` | convert_takeoff_conical.py:19-22 | with a read-only `data` and no `data/processed`, `makedirs` raises outside the `try` and the script ends without a verdict |
| `HorizontalSurface.GeometryTypeLabel` | convert_horizontal_surface.py:38 | the reported type is 'Unknown' exactly for an empty dataset, and otherwise the first row's type |
| `HorizontalSurface.ConvertHorizontal` | convert_horizontal_surface.py:13-76 | a missing source fails before anything else, leaving the disk unchanged; otherwise the directory is made first, and a failure to make it (a file in the way, or a read-only parent) escapes; success exactly when the source converts and the output is writable; on failure no file changes; on success the count equals the loaded count, bounds are shown exactly when there are rows, every geometry is brought to WGS84, and the attributes and columns pass through; every other file is kept, read-only paths are unchanged, and the only new directories are `data` and `data/processed` |
| `HorizontalSurface.RunMain` | convert_horizontal_surface.py:78-89 | the closing message is the next-steps one exactly when the conversion returned True |
| `HorizontalSurface.NoHeightDefault` | convert_horizontal_surface.py:47-54 | the written file has a `height` column exactly when the source had one, and every row's attributes are the source's |
| `JsText.Includes` | data/raw/surface_approche_geojson/surface_loader.js:255-256 | `includes` holds exactly when the word occurs at some offset of the name |
| `JsText.DecimalRoundTrip` | data/raw/surface_approche_geojson/surface_loader.js:94 | the decimal rendering of a feature number reads back as that number |
| `JsText.OrElse` | data/raw/surface_approche_geojson/surface_loader.js:148 | the logical-or fallback gives the value itself when it is truthy and the fallback otherwise, so it is never empty when the fallback is not |
| `JsText.Render` | data/raw/surface_approche_geojson/surface_loader.js:188 | a template renders a string property as itself, a `null` one as "null" and an absent one as "undefined", so the two missing cases stay distinguishable |
| `SurfaceLoader.NewLoader` | data/raw/surface_approche_geojson/surface_loader.js:8-23 | the six initial layers, with only `approach` visible (every other name reads false), and no entities |
| `SurfaceLoader.ToggleSurfaceVisibility` | data/raw/surface_approche_geojson/surface_loader.js:241-264 | the returned value is the negated old flag and is stored for the layer; in each category only entities the layer governs change, and only their `show` |
| `SurfaceLoader.ToggleTwiceRestoresFlag` | data/raw/surface_approche_geojson/surface_loader.js:241-243 | two toggles give back the original flag, and the original map when the layer was already in it |
| `SurfaceLoader.ToggleTwiceRestoresLoader` | data/raw/surface_approche_geojson/surface_loader.js:241-263 | when the governed entities agree with the flag, two toggles restore the whole state |
| `SurfaceLoader.UnhandledLayerChangesNoEntity` | data/raw/surface_approche_geojson/surface_loader.js:245-261 | a layer with no `switch` case is flipped, but no entity changes |
| `SurfaceLoader.BuildingsToggleReachesRoadNamedBuilding` | data/raw/surface_approche_geojson/surface_loader.js:252-259 | the buildings toggle shows a road whose name contains "Building" |
| `SurfaceLoader.RoadColor` | data/raw/surface_approche_geojson/surface_loader.js:213-224 | the colour is white exactly for classes outside the seven-entry table |
| `SurfaceLoader.RoadWidth` | data/raw/surface_approche_geojson/surface_loader.js:227-238 | the width is between 1 and 8, and 1 for any class outside the table |
| `SurfaceLoader.RoadStylesFollowRank` | data/raw/surface_approche_geojson/surface_loader.js:213-238 | widths fall strictly from motorway to service, and the seven known classes have distinct colours |
| `SurfaceLoader.GetSurfaceStats` | data/raw/surface_approche_geojson/surface_loader.js:285-294 | each count is the size of its category, and the total is their sum |
| `SurfaceLoader.ToggleKeepsStats` | data/raw/surface_approche_geojson/surface_loader.js:241-264 | toggling changes no count |
| `SurfaceLoader.ApproachEntity` | data/raw/surface_approche_geojson/surface_loader.js:33-45 | the approach entity for a feature is shown, yellow and filled, and named "Approach Surface " followed by its 1-based number |
| `SurfaceLoader.ApproachNamesDistinct` | data/raw/surface_approche_geojson/surface_loader.js:34 | distinct approach features get distinct entity names |
| `SurfaceLoader.LoadApproachSurface` | data/raw/surface_approche_geojson/surface_loader.js:26-56 | a response whose every feature has a geometry with a first coordinate array (not a Point, not a GeometryCollection) replaces the approach category with one entity per feature; otherwise the TypeError is caught and nothing changes |
| `SurfaceLoader.CollectCapped` | data/raw/surface_approche_geojson/surface_loader.js:140-163 | the loop yields one entity per feature, in order, for the first `min(count, cap)` features, and fails exactly when one of those has a geometry the loader cannot map over |
| `SurfaceLoader.BuildingEntity` | data/raw/surface_approche_geojson/surface_loader.js:147-160 | a building is named after its truthy `name`, otherwise "Unnamed", and the buildings toggle always reaches it |
| `SurfaceLoader.LoadBuildings` | data/raw/surface_approche_geojson/surface_loader.js:135-172 | at most 1000 entities, built from a prefix of the features in order and appended to `reseaux`; a Point, a GeometryCollection or a missing geometry among them throws, and then nothing changes |
| `SurfaceLoader.RoadEntity` | data/raw/surface_approche_geojson/surface_loader.js:187-198 | a road is named after its truthy `name`, otherwise after its class as a template renders it (a `null` class gives "Road: null", white, width 1); its colour and width come from the class; the roads toggle always reaches it |
| `SurfaceLoader.LoadRoads` | data/raw/surface_approche_geojson/surface_loader.js:175-210 | at most 500 entities, built from a prefix of the features in order with class-based style (a `null` class renders as "null"), and appended to `reseaux`; a GeometryCollection or a missing geometry among them throws, and then nothing changes |
| `SurfaceLoader.PointBuildingIsNotLoaded` | data/raw/surface_approche_geojson/surface_loader.js:150 | a Point building makes `coordinates[0].map` throw, so the buildings response is not loaded, while a Point road is mapped by `coordinates.map` |
| `SurfaceLoader.OlsEntity` | data/raw/surface_approche_geojson/surface_loader.js:93-118 | an OLS polygon becomes a filled area and any other drawn type a 3-wide line, in its file's colour, named after the file and the 1-based feature number |
| `SurfaceLoader.OlsNamesDistinct` | data/raw/surface_approche_geojson/surface_loader.js:93-118 | within one OLS file, features at distinct positions get distinct entity names, whatever their geometry types |
| `SurfaceLoader.FileContribution` | data/raw/surface_approche_geojson/surface_loader.js:85-127 | a file whose request fails contributes nothing; otherwise an entity is contributed exactly when it is drawn for a reached Polygon or LineString feature of that file, and each only once |
| `SurfaceLoader.OlsEntitiesFrom` | data/raw/surface_approche_geojson/surface_loader.js:89-122 | an entity appears for each Polygon or LineString feature reached before the first unreadable geometry, and only for those, numbered by its position in the file; no entity appears twice |
| `SurfaceLoader.LoadOLSSurfaces` | data/raw/surface_approche_geojson/surface_loader.js:59-132 | the `dxf` category becomes the concatenation of every file's contribution, in file order; nothing else changes |
| `SurfaceLoader.EveryFileContributes` | data/raw/surface_approche_geojson/surface_loader.js:84-128 | a failing file does not stop later ones: what any file contributes is in the loaded layer |
| `SurfaceLoader.OnlyDrawnFeaturesContribute` | data/raw/surface_approche_geojson/surface_loader.js:92-121 | every loaded OLS entity comes from a reached Polygon or LineString feature of a file whose request succeeded |
| `SurfaceLoader.LoadAllSurfaces` | data/raw/surface_approche_geojson/surface_loader.js:267-282 | always reports success; a loadable approach response replaces the approach layer with the numbered approach entities, otherwise it is kept; the OLS layer becomes every file's contribution in file order; `reseaux` is left alone |

## Left out

- Shapefile and GeoJSON serialisation are the geospatial library's I/O. A file is modelled as its parsed content, or as unreadable.
- The numeric content of `to_crs` (floating-point geodesy) is left out. The transform is a parameter, undefined where it fails.
- CRS equality is identity of the modelled CRS value. The library's semantic comparison is left out, so a custom definition equivalent to EPSG:4326 does not count as WGS84.
- Geometries are a kind plus a vertex list. Rings and parts are left out, and so are rows with a missing geometry on the Python side.
- Diagnostics and console output are left out: printed columns and dtypes, the output file size, the values of `total_bounds`, and every `print`/`console.log`. The horizontal report records only whether bounds were shown.
- A write that fails part-way is modelled as leaving the disk unchanged.
- Directory permissions are one read-only set of paths. Owners, modes and whether the GeoJSON driver recreates an existing file (which a read-only directory would refuse) are left out: replacing an existing file needs only the file to be writable.
- Attribute values are untyped scalars. Pandas dtypes and how GeoJSON changes them are left out.
- `serve_ols_viewer.py` is an HTTP file server with CORS headers and a browser-launch thread. It has no domain logic.
- The `src/` packages are stubs whose bodies are `pass`. The `examples/` scripts print text or write an HTML string.
- The viewer's rendering is left out: Cesium entity construction, coordinate conversion, alpha values, outline colours and extrusion heights (including the random building heights). The viewer's own entity collection is left out too; only `loadedSurfaces` is modelled.
- `async`/`await` ordering is left out: each loader runs to completion in turn.
- On the JavaScript side, the feature errors modelled are a missing geometry and a geometry type whose coordinates the loader cannot map over (a Point or a GeometryCollection for `coordinates[0].map`, a GeometryCollection for `coordinates.map`). Empty or malformed coordinate arrays and a missing `properties` object are left out, and so is Cesium's handling of coordinates of the wrong depth (such as a LineString approach feature), which raises no JavaScript error of its own.
- Property values other than strings, `null` and absence (numbers, booleans, objects) are left out: the loader only reads `name` and `fclass` as strings.
- Property names inherited from `Object.prototype` (such as `toString`) are left out. Looking them up in the visibility map or the road tables would not read as undefined.
- OlsEntitiesFrom: states which entities a file yields, each exactly once, but not their order within the file.
- LoadApproachSurface: does not record the approach polygons' heights, which come from the feature coordinates.

=== FILE: crs_normalizer.dfy ===
/**
 * Bringing a dataset into WGS84 (EPSG:4326): the identity when the dataset
 * is already tagged EPSG:4326, otherwise a reprojection of every vertex.
 */
module CrsNormalizer {
  import opened Wrappers
  import opened GeoData

  /**
   * The geodesy library's coordinate transform from a source CRS to WGS84.
   * Its numeric content is not modelled; it may be undefined at a vertex.
   */
  type Projection = (Crs, Position) -> Option<Position>

  /** Transform every vertex; undefined as soon as one vertex has no image. */
  function ProjectPositions(project: Projection, source: Crs, ps: seq<Position>): (r: Option<seq<Position>>)
    ensures r.Some? <==> forall i :: 0 <= i < |ps| ==> project(source, ps[i]).Some?
    ensures r.Some? ==> |r.value| == |ps|
    ensures r.Some? ==> forall i :: 0 <= i < |ps| ==> r.value[i] == project(source, ps[i]).value
    decreases |ps|
  {
    if |ps| == 0 then Some([])
    else
      match project(source, ps[0])
      case None => None
      case Some(p) =>
        match ProjectPositions(project, source, ps[1..])
        case None => None
        case Some(rest) => Some([p] + rest)
  }

  /** A geometry with each vertex transformed and its kind kept. */
  function ProjectGeometry(project: Projection, source: Crs, g: Geometry): (r: Option<Geometry>)
    ensures r.Some? <==> forall i :: 0 <= i < |g.vertices| ==> project(source, g.vertices[i]).Some?
    ensures r.Some? ==> r.value.kind == g.kind && |r.value.vertices| == |g.vertices|
    ensures r.Some? ==> forall i :: 0 <= i < |g.vertices| ==> r.value.vertices[i] == project(source, g.vertices[i]).value
  {
    match ProjectPositions(project, source, g.vertices)
    case None => None
    case Some(vs) => Some(Geometry(g.kind, vs))
  }

  /** Whether every vertex of the row's geometry has an image under the transform. */
  predicate Projectable(project: Projection, source: Crs, f: Feature) {
    ProjectGeometry(project, source, f.geometry).Some?
  }

  /** Transform every row's geometry, keeping its attributes; undefined if any row fails. */
  function ProjectFeatures(project: Projection, source: Crs, fs: seq<Feature>): (r: Option<seq<Feature>>)
    ensures r.Some? <==> forall i :: 0 <= i < |fs| ==> Projectable(project, source, fs[i])
    ensures r.Some? ==> |r.value| == |fs|
    ensures r.Some? ==> forall i :: 0 <= i < |fs| ==>
              r.value[i] == Feature(ProjectGeometry(project, source, fs[i].geometry).value, fs[i].attributes)
    decreases |fs|
  {
    if |fs| == 0 then Some([])
    else
      match ProjectGeometry(project, source, fs[0].geometry)
      case None => None
      case Some(g) =>
        match ProjectFeatures(project, source, fs[1..])
        case None => None
        case Some(rest) => Some([Feature(g, fs[0].attributes)] + rest)
  }

  /**
   * `after` is the geometry `before` of a dataset tagged `crs`, in WGS84:
   * `before` itself when the tag is already EPSG:4326, otherwise its image
   * under the transform.
   */
  predicate NormalizedGeometry(project: Projection, crs: Option<Crs>, before: Geometry, after: Geometry) {
    if crs == Some(Wgs84) then after == before
    else crs.Some? && ProjectGeometry(project, crs.value, before) == Some(after)
  }

  /**
   * `after` is `before` moved to WGS84: same rows in the same order, same
   * columns and attribute values, and each geometry normalized.
   */
  predicate Reprojected(project: Projection, before: Dataset, after: Dataset) {
    && after.crs == Some(Wgs84)
    && after.columns == before.columns
    && |after.features| == |before.features|
    && forall i :: 0 <= i < |before.features| ==>
         && after.features[i].attributes == before.features[i].attributes
         && NormalizedGeometry(project, before.crs, before.features[i].geometry, after.features[i].geometry)
  }

  /**
   * `if gdf.crs != 'EPSG:4326': gdf = gdf.to_crs('EPSG:4326')`. A dataset
   * without a CRS compares unequal and then cannot be transformed.
   */
  function Normalize(project: Projection, ds: Dataset): (r: Result<Dataset, ConversionError>)
    ensures ds.crs == Some(Wgs84) ==> r == Success(ds)
    ensures ds.crs.None? ==> r == Failure(UndefinedCrs)
    ensures r.Success? ==> Reprojected(project, ds, r.value)
    ensures r.Success? && ds.crs.Some? && ds.crs != Some(Wgs84) ==>
              r.value.features == ProjectFeatures(project, ds.crs.value, ds.features).value
    ensures ds.crs.Some? && ds.crs != Some(Wgs84) ==>
              (r.Success? <==> forall i :: 0 <= i < |ds.features| ==> Projectable(project, ds.crs.value, ds.features[i]))
    ensures r.Failure? && ds.crs.Some? ==> r.error == TransformFailure
  {
    if ds.crs == Some(Wgs84) then Success(ds)
    else if ds.crs.None? then Failure(UndefinedCrs)
    else
      match ProjectFeatures(project, ds.crs.value, ds.features)
      case None => Failure(TransformFailure)
      case Some(fs) => Success(Dataset(fs, ds.columns, Some(Wgs84)))
  }

  /** Normalizing an already normalized dataset changes nothing. */
  lemma NormalizeIdempotent(project: Projection, ds: Dataset)
    requires Normalize(project, ds).Success?
    ensures Normalize(project, Normalize(project, ds).value) == Normalize(project, ds)
  {
  }
}

=== FILE: file_store.dfy ===
/**
 * The part of the filesystem the converters touch, as a value: which paths
 * hold which files, which directories exist, and which paths refuse writes.
 * Reading a shapefile or GeoJSON file and writing GeoJSON are the geospatial
 * library's I/O; only their outcome is modelled.
 */
module FileStore {
  import opened Wrappers
  import opened GeoData

  type Path = string

  /** What a file holds, as far as the geospatial reader is concerned. */
  datatype Content =
    | Shapefile(dataset: Dataset)                             // a readable shapefile and its sidecars
    | GeoJson(features: seq<Feature>, columns: set<string>)   // a FeatureCollection in WGS84
    | Unreadable                                              // malformed, unreadable or missing sidecars

  datatype Disk = Disk(files: map<Path, Content>, dirs: set<Path>, readOnly: set<Path>)

  /** `os.path.exists`: true for files and for directories. */
  predicate Exists(d: Disk, p: Path) {
    p in d.files || p in d.dirs
  }

  /** `gpd.read_file(p)`: a GeoJSON file always reads back tagged WGS84. */
  function ReadFile(d: Disk, p: Path): (r: Result<Dataset, ConversionError>)
    ensures r.Success? <==> p in d.files && !d.files[p].Unreadable?
    ensures r.Failure? ==> r.error == LoadFailure
    ensures r.Success? && d.files[p].Shapefile? ==> r.value == d.files[p].dataset
    ensures r.Success? && d.files[p].GeoJson? ==> r.value.crs == Some(Wgs84)
  {
    if p !in d.files then Failure(LoadFailure)
    else
      match d.files[p]
      case Shapefile(ds) => Success(ds)
      case GeoJson(fs, cols) => Success(Dataset(fs, cols, Some(Wgs84)))
      case Unreadable => Failure(LoadFailure)
  }

  /** The working directory the scripts run in, parent of every relative path's first component. */
  const WorkingDir: Path := "."

  /** The directory `chain[i]` is created in: `parent` for the first one, otherwise the previous one. */
  function ParentOf(parent: Path, chain: seq<Path>, i: nat): Path
    requires i < |chain|
  {
    if i == 0 then parent else chain[i - 1]
  }

  /**
   * Directory `chain[i]` already exists, or it can be created: no regular
   * file is in its way and its parent directory accepts new entries.
   */
  predicate Creatable(d: Disk, parent: Path, chain: seq<Path>, i: nat)
    requires i < |chain|
  {
    chain[i] in d.dirs || (chain[i] !in d.files && ParentOf(parent, chain, i) !in d.readOnly)
  }

  /**
   * `os.makedirs(..., exist_ok=True)` (and `Path.mkdir(parents=True,
   * exist_ok=True)`) over the chain of directories from the outermost in,
   * the first one inside `parent`: an existing directory is kept; a regular
   * file in the way raises, and so does a new directory inside a read-only
   * one. Returns the disk as left (directories made before the failing one
   * remain) and whether every directory now exists.
   */
  function MakeDirs(d: Disk, parent: Path, chain: seq<Path>): (r: (Disk, bool))
    requires Distinct(chain)
    ensures r.1 <==> forall i :: 0 <= i < |chain| ==> Creatable(d, parent, chain, i)
    ensures r.0.files == d.files && r.0.readOnly == d.readOnly
    ensures d.dirs <= r.0.dirs
    ensures forall p :: p in r.0.dirs ==> p in d.dirs || p in chain
    ensures r.1 ==> forall i :: 0 <= i < |chain| ==> chain[i] in r.0.dirs
    decreases |chain|
  {
    if |chain| == 0 then (d, true)
    else if chain[0] in d.dirs then
      CreatableShift(d, d, parent, chain);
      MakeDirs(d, chain[0], chain[1..])
    else if chain[0] in d.files || parent in d.readOnly then
      assert !Creatable(d, parent, chain, 0);
      (d, false)
    else
      var made := d.(dirs := d.dirs + {chain[0]});
      CreatableShift(d, made, parent, chain);
      MakeDirs(made, chain[0], chain[1..])
  }

  /** No directory occurs twice in the chain, as for the prefixes of one path. */
  predicate Distinct(chain: seq<Path>) {
    forall i, j :: 0 <= i < j < |chain| ==> chain[i] != chain[j]
  }

  /**
   * After the first directory of the chain is dealt with, the rest of the
   * chain (inside that directory) is creatable on the new disk exactly when
   * it was on the old one.
   */
  lemma CreatableShift(d: Disk, d': Disk, parent: Path, chain: seq<Path>)
    requires |chain| > 0 && Distinct(chain)
    requires d'.files == d.files && d'.readOnly == d.readOnly
    requires forall i :: 1 <= i < |chain| ==> (chain[i] in d'.dirs <==> chain[i] in d.dirs)
    ensures forall i :: 1 <= i < |chain| ==> (Creatable(d, parent, chain, i) <==> Creatable(d', chain[0], chain[1..], i - 1))
    ensures forall i :: 0 <= i < |chain| - 1 ==> (Creatable(d', chain[0], chain[1..], i) <==> Creatable(d, parent, chain, i + 1))
  {
    forall i | 1 <= i < |chain|
      ensures Creatable(d, parent, chain, i) <==> Creatable(d', chain[0], chain[1..], i - 1)
    {
      assert ParentOf(parent, chain, i) == ParentOf(chain[0], chain[1..], i - 1);
      assert chain[1..][i - 1] == chain[i];
    }
  }

  /**
   * Whether `p`, inside directory `dir`, can be written: the directory
   * exists, `p` is not a directory nor read-only, and a new file needs a
   * directory that accepts new entries.
   */
  predicate Writable(d: Disk, dir: Path, p: Path) {
    && dir in d.dirs
    && p !in d.dirs && p !in d.readOnly
    && (p !in d.files ==> dir !in d.readOnly)
  }

  /** `gdf.to_file(p, driver='GeoJSON')`: replaces whatever `p` held; fails leaving the disk as it was. */
  function WriteGeoJson(d: Disk, dir: Path, p: Path, ds: Dataset): (r: Result<Disk, ConversionError>)
    ensures r.Success? <==> Writable(d, dir, p)
    ensures r.Failure? ==> r.error == ExportFailure
    ensures r.Success? ==> r.value.dirs == d.dirs && r.value.readOnly == d.readOnly
    ensures r.Success? ==> r.value.files.Keys == d.files.Keys + {p}
    ensures r.Success? ==> forall q :: q in d.files && q != p ==> r.value.files[q] == d.files[q]
  {
    if Writable(d, dir, p) then Success(d.(files := d.files[p := GeoJson(ds.features, ds.columns)]))
    else Failure(ExportFailure)
  }

  /** Round trip: a WGS84 dataset written as GeoJSON reads back as the same dataset. */
  lemma WriteThenRead(d: Disk, dir: Path, p: Path, ds: Dataset)
    requires ds.crs == Some(Wgs84)
    requires Writable(d, dir, p)
    ensures ReadFile(WriteGeoJson(d, dir, p, ds).value, p) == Success(ds)
  {
  }
}

=== FILE: geodata.dfy ===
/**
 * The in-memory surface dataset the converters work on: an ordered sequence
 * of features, the attribute columns they share, and one optional coordinate
 * reference system (CRS) tag for the whole dataset.
 */
module GeoData {
  import opened Wrappers

  /** A vertex: easting/longitude, northing/latitude and an optional elevation. */
  datatype Position = Position(x: real, y: real, z: Option<real>)

  /** The simple-feature geometry types a shapefile or GeoJSON file can hold. */
  datatype GeometryKind =
    | Point
    | MultiPoint
    | LineString
    | MultiLineString
    | Polygon
    | MultiPolygon
    | GeometryCollection

  /** The name `geom_type` reports for a geometry kind. */
  function KindName(k: GeometryKind): string {
    match k
    case Point => "Point"
    case MultiPoint => "MultiPoint"
    case LineString => "LineString"
    case MultiLineString => "MultiLineString"
    case Polygon => "Polygon"
    case MultiPolygon => "MultiPolygon"
    case GeometryCollection => "GeometryCollection"
  }

  /** A geometry: its kind and its vertices in order (rings and parts are not told apart). */
  datatype Geometry = Geometry(kind: GeometryKind, vertices: seq<Position>)

  /** A scalar attribute value; `Null` is a missing value in a column that exists. */
  datatype Value = Null | Int(i: int) | Real(r: real) | Text(s: string)

  /** One row of the dataset: a geometry and its attribute values by column name. */
  datatype Feature = Feature(geometry: Geometry, attributes: map<string, Value>)

  /** A coordinate reference system, by EPSG code or by a custom definition. */
  datatype Crs = Epsg(code: nat) | Custom(definition: string)

  /** WGS84 longitude/latitude, the only CRS the viewer accepts. */
  const Wgs84: Crs := Epsg(4326)

  /**
   * A dataset: rows in order, the attribute columns of the table (the
   * geometry column is not listed), and the CRS shared by every row.
   */
  datatype Dataset = Dataset(features: seq<Feature>, columns: set<string>, crs: Option<Crs>)

  /** Every row carries exactly the table's columns (possibly as `Null`). */
  predicate WellFormed(ds: Dataset) {
    forall i :: 0 <= i < |ds.features| ==> ds.features[i].attributes.Keys == ds.columns
  }

  /** Why one surface conversion reports failure. */
  datatype ConversionError =
    | MissingSource     // the source path does not exist (checked before loading)
    | LoadFailure       // the source cannot be read as a dataset
    | UndefinedCrs      // the source declares no CRS, so it cannot be reprojected
    | TransformFailure  // some vertex has no image under the reprojection
    | DirectoryFailure  // the output directory cannot be created
    | ExportFailure     // the GeoJSON file cannot be written

  /** The geometry kind of every row, in row order. */
  function Kinds(fs: seq<Feature>): seq<GeometryKind> {
    seq(|fs|, i requires 0 <= i < |fs| => fs[i].geometry.kind)
  }

  /** The position of the first occurrence of `k` in `ks`. */
  function FirstIndex(ks: seq<GeometryKind>, k: GeometryKind): (i: nat)
    requires k in ks
    ensures i < |ks| && ks[i] == k
    ensures forall j :: 0 <= j < i ==> ks[j] != k
  {
    if ks[0] == k then 0 else 1 + FirstIndex(ks[1..], k)
  }

  /**
   * `geom_type.unique()`: every kind that occurs, exactly once, in the order
   * of its first occurrence.
   */
  function Unique(ks: seq<GeometryKind>): (r: seq<GeometryKind>)
    ensures forall k :: k in r <==> k in ks
    ensures forall i, j :: 0 <= i < j < |r| ==> FirstIndex(ks, r[i]) < FirstIndex(ks, r[j])
    decreases |ks|
  {
    if |ks| == 0 then []
    else
      var u := Unique(ks[..|ks| - 1]);
      UniqueExtends(ks, u);
      if ks[|ks| - 1] in u then u else u + [ks[|ks| - 1]]
  }

  /** A first occurrence inside a prefix is the first occurrence in the whole sequence. */
  lemma FirstIndexInPrefix(ks: seq<GeometryKind>, m: nat, k: GeometryKind)
    requires m <= |ks| && k in ks[..m]
    ensures FirstIndex(ks, k) == FirstIndex(ks[..m], k)
  {
  }

  /** Appending the last kind, if new, to the unique kinds of the prefix keeps both properties. */
  lemma UniqueExtends(ks: seq<GeometryKind>, u: seq<GeometryKind>)
    requires |ks| > 0
    requires forall k :: k in u <==> k in ks[..|ks| - 1]
    requires forall i, j ::
               0 <= i < j < |u| ==>
                 u[i] in ks[..|ks| - 1] && u[j] in ks[..|ks| - 1] &&
                 FirstIndex(ks[..|ks| - 1], u[i]) < FirstIndex(ks[..|ks| - 1], u[j])
    ensures var r := if ks[|ks| - 1] in u then u else u + [ks[|ks| - 1]];
            && (forall k :: k in r <==> k in ks)
            && (forall i, j :: 0 <= i < j < |r| ==> FirstIndex(ks, r[i]) < FirstIndex(ks, r[j]))
  {
    var n := |ks| - 1;
    var x := ks[n];
    assert ks == ks[..n] + [x];
    var r := if x in u then u else u + [x];
    forall i | 0 <= i < |u|
      ensures u[i] in ks[..n] && FirstIndex(ks, u[i]) == FirstIndex(ks[..n], u[i])
    {
      assert u[i] in u;
      FirstIndexInPrefix(ks, n, u[i]);
    }
    if x !in u {
      assert FirstIndex(ks, x) == n;
      forall i, j | 0 <= i < j < |r|
        ensures FirstIndex(ks, r[i]) < FirstIndex(ks, r[j])
      {
        if j == |u| {
          assert r[i] == u[i];
          assert FirstIndex(ks[..n], u[i]) < n;
        } else {
          assert r[i] == u[i] && r[j] == u[j];
        }
      }
    }
  }
}

=== FILE: horizontal_surface.dfy ===
/**
 * The horizontal-surface converter script: an existence check, the output
 * directory, then load, reprojection and save with the attributes passed
 * through untouched (no default height, no descriptive tags).
 */
module HorizontalSurface {
  import opened Wrappers
  import opened GeoData
  import opened CrsNormalizer
  import opened FileStore
  import opened SurfacePipeline

  const Source: Path := "data/raw/horizental/horizental.shp"
  const Output: Path := "data/processed/horizontal.geojson"

  /** The conversion summary: feature count, the first row's geometry type, and whether bounds were shown. */
  datatype Report = Report(features: nat, geometryType: string, boundsShown: bool)

  /** `gdf.geom_type.iloc[0] if len(gdf) > 0 else 'Unknown'`. */
  function GeometryTypeLabel(ds: Dataset): (typeName: string)
    ensures typeName == "Unknown" <==> |ds.features| == 0
    ensures |ds.features| > 0 ==> typeName == KindName(ds.features[0].geometry.kind)
  {
    if |ds.features| > 0 then KindName(ds.features[0].geometry.kind) else "Unknown"
  }

  /**
   * `convert_horizontal_surface`: a missing source returns False before
   * anything else happens; the directory is made outside the `try`.
   */
  function ConvertHorizontal(d: Disk, project: Projection): (r: Conversion<Report>)
    ensures !Exists(d, Source) ==> r == Returned(Failure(MissingSource), d)
    ensures r.Raised? <==> Exists(d, Source) && !OutputDirMakeable(d)
    ensures r.Raised? ==> r.error == DirectoryFailure
    ensures r.Returned? && Exists(d, Source) ==> OutputDir in r.disk.dirs
    ensures r.Returned? ==>
              (r.result.Success? <==>
                 Converts(d, project, Source) && OutputWritable(d, Output))
    ensures r.Returned? && r.result.Failure? ==> r.disk.files == d.files
    ensures r.Succeeded() ==>
              var loaded := ReadFile(d, Source).value;
              && r.result.value.features == |loaded.features|
              && r.result.value.geometryType == GeometryTypeLabel(loaded)
              && (r.result.value.boundsShown <==> |loaded.features| > 0)
    ensures r.Succeeded() ==>
              var loaded := ReadFile(d, Source).value;
              && Output in r.disk.files && r.disk.files[Output].GeoJson?
              && Prepared(project, loaded, Dataset(r.disk.files[Output].features, r.disk.files[Output].columns, Some(Wgs84)), None)
    ensures r.disk.readOnly == d.readOnly
    ensures d.dirs <= r.disk.dirs && forall p :: p in r.disk.dirs ==> p in d.dirs || p in OutputDirChain
    ensures forall q :: q in d.files && q != Output ==> q in r.disk.files && r.disk.files[q] == d.files[q]
    ensures forall q :: q in r.disk.files ==> q in d.files || q == Output
  {
    if !Exists(d, Source) then Returned(Failure(MissingSource), d)
    else
      MakeOutputDir(d);
      var (d1, ok) := MakeDirs(d, WorkingDir, OutputDirChain);
      if !ok then Raised(DirectoryFailure, d1)
      else
        match LoadNormalizeSave(d1, project, Source, Output, None)
        case Failure(e) => Returned(Failure(e), d1)
        case Success(s) =>
          Returned(Success(Report(|s.saved.features|, GeometryTypeLabel(s.loaded), |s.saved.features| > 0)), s.disk)
  }

  /** The two closing messages of `main`. */
  datatype Message = NextSteps | ConversionFailed

  /** How `main` ends: with a message, or with the traceback of an escaped exception. */
  datatype MainRun = Exited(message: Message, disk: Disk) | Crashed(disk: Disk)

  /** `main`: the message is chosen by the conversion's boolean alone. */
  function RunMain(d: Disk, project: Projection): (r: MainRun)
    ensures r.Crashed? <==> ConvertHorizontal(d, project).Raised?
    ensures r.Exited? ==> (r.message == NextSteps <==> ConvertHorizontal(d, project).Succeeded())
    ensures r.disk == ConvertHorizontal(d, project).disk
  {
    var c := ConvertHorizontal(d, project);
    if c.Raised? then Crashed(c.disk)
    else if c.result.Success? then Exited(NextSteps, c.disk)
    else Exited(ConversionFailed, c.disk)
  }

  /**
   * The horizontal conversion adds no `height` column: the written file has
   * one exactly when the source had one, with the same values.
   */
  lemma NoHeightDefault(d: Disk, project: Projection)
    requires ConvertHorizontal(d, project).Succeeded()
    ensures var out := ConvertHorizontal(d, project).disk.files[Output];
            var loaded := ReadFile(d, Source).value;
            && ("height" in out.columns <==> "height" in loaded.columns)
            && forall i :: 0 <= i < |out.features| ==> out.features[i].attributes == loaded.features[i].attributes
  {
  }
}

=== FILE: js_text.dfy ===
/**
 * The few JavaScript string behaviours the viewer's loader relies on:
 * `includes`, truthiness of properties that may be `null` or absent,
 * template rendering of such properties, and decimal rendering of indices.
 */
module JsText {

  predicate StartsWith(s: string, prefix: string) {
    |prefix| <= |s| && s[..|prefix|] == prefix
  }

  /** `s.includes(sub)`: `sub` occurs in `s` at some offset. */
  function Includes(s: string, sub: string): (r: bool)
    ensures r <==> exists i :: 0 <= i <= |s| && StartsWith(s[i..], sub)
    decreases |s|
  {
    if StartsWith(s, sub) then
      assert s[0..] == s;
      true
    else if |s| == 0 then false
    else
      var r := Includes(s[1..], sub);
      assert forall i :: 1 <= i <= |s| ==> s[1..][i - 1..] == s[i..];
      r
  }

  /** A string-valued GeoJSON property as JavaScript sees it: absent, `null`, or a string. */
  datatype JsValue = Undefined | Null | Str(s: string)

  /** A property read as a JavaScript boolean: null, undefined and "" are falsy. */
  predicate Truthy(v: JsValue) {
    v.Str? && v.s != ""
  }

  /** `v || fallback`: the value itself when it is truthy, otherwise the fallback. */
  function OrElse(v: JsValue, fallback: string): (r: string)
    ensures Truthy(v) ==> r == Render(v)
    ensures !Truthy(v) ==> r == fallback
    ensures fallback != "" ==> r != ""
  {
    if Truthy(v) then v.s else fallback
  }

  /** How `${v}` renders a property: a string as itself, `null` as "null", an absent one as "undefined". */
  function Render(v: JsValue): (r: string)
    ensures v.Str? ==> r == v.s
    ensures v.Null? ==> r == "null"
    ensures v.Undefined? ==> r == "undefined"
  {
    match v
    case Str(s) => s
    case Null => "null"
    case Undefined => "undefined"
  }

  function Digit(d: nat): char
    requires d < 10
  {
    "0123456789"[d]
  }

  /** `${n}` for a natural number: its decimal digits, most significant first. */
  function DecimalString(n: nat): (s: string)
    ensures |s| >= 1
    ensures forall i :: 0 <= i < |s| ==> '0' <= s[i] <= '9'
  {
    if n < 10 then [Digit(n)] else DecimalString(n / 10) + [Digit(n % 10)]
  }

  /** The number a string of decimal digits denotes. */
  function DecimalValue(s: string): nat
    requires forall i :: 0 <= i < |s| ==> '0' <= s[i] <= '9'
  {
    if |s| == 0 then 0
    else 10 * DecimalValue(s[..|s| - 1]) + (s[|s| - 1] as int - '0' as int)
  }

  /** Rendering then reading back the digits gives the number again, so distinct indices render distinctly. */
  lemma {:induction false} DecimalRoundTrip(n: nat)
    ensures DecimalValue(DecimalString(n)) == n
    decreases n
  {
    var s := DecimalString(n);
    if n >= 10 {
      DecimalRoundTrip(n / 10);
      assert s[..|s| - 1] == DecimalString(n / 10);
    }
  }
}

=== FILE: metadata_tagger.dfy ===
/**
 * The tagging step of the takeoff and conical converters: a default `height`
 * column when the table has none, and four descriptive columns that are
 * always overwritten with the surface's fixed literals.
 */
module MetadataTagger {
  import opened GeoData

  const HeightColumn: string := "height"
  const SurfaceTypeColumn: string := "surface_type"
  const SurfaceNameColumn: string := "surface_name"
  const RegulationColumn: string := "regulation"
  const DescriptionColumn: string := "description"

  const DescriptiveColumns: set<string> :=
    {SurfaceTypeColumn, SurfaceNameColumn, RegulationColumn, DescriptionColumn}

  /** What one surface writes: its default height and its four descriptive literals. */
  datatype TagPolicy = TagPolicy(
    defaultHeight: int,
    surfaceType: string,
    surfaceName: string,
    regulation: string,
    description: string)

  /** The take-off climb surface: 100 m default. */
  const TakeoffTags: TagPolicy :=
    TagPolicy(100, "takeoff", "Take-off Climb Surface", "ICAO Annex 14", "Surface de montée au décollage")

  /** The conical surface: 200 m default. */
  const ConicalTags: TagPolicy :=
    TagPolicy(200, "conical", "Conical Surface 3D", "ICAO Annex 14", "Surface conique 3D")

  /** The row carries the policy's four descriptive literals. */
  predicate Described(attrs: map<string, Value>, p: TagPolicy) {
    && SurfaceTypeColumn in attrs && attrs[SurfaceTypeColumn] == Text(p.surfaceType)
    && SurfaceNameColumn in attrs && attrs[SurfaceNameColumn] == Text(p.surfaceName)
    && RegulationColumn in attrs && attrs[RegulationColumn] == Text(p.regulation)
    && DescriptionColumn in attrs && attrs[DescriptionColumn] == Text(p.description)
  }

  /**
   * One row before and after tagging, given whether the TABLE already had a
   * `height` column: the descriptive literals are present whatever the row
   * held; a missing height column is filled with the default; every other
   * value, an existing height included (even `Null`), is untouched; and no
   * other key appears.
   */
  predicate Retagged(before: map<string, Value>, after: map<string, Value>, p: TagPolicy, hasHeight: bool) {
    && after.Keys == before.Keys + DescriptiveColumns + (if hasHeight then {} else {HeightColumn})
    && Described(after, p)
    && (!hasHeight ==> after[HeightColumn] == Int(p.defaultHeight))
    && forall k :: k in before && k !in DescriptiveColumns && (hasHeight || k != HeightColumn) ==>
         after[k] == before[k]
  }

  /**
   * The column assignments of one row, in source order: `height` only when
   * the table lacks that column, then the four descriptive literals.
   */
  function TagRow(attrs: map<string, Value>, p: TagPolicy, hasHeight: bool): map<string, Value> {
    var filled := if hasHeight then attrs else attrs[HeightColumn := Int(p.defaultHeight)];
    filled[SurfaceTypeColumn := Text(p.surfaceType)]
          [SurfaceNameColumn := Text(p.surfaceName)]
          [RegulationColumn := Text(p.regulation)]
          [DescriptionColumn := Text(p.description)]
  }

  /**
   * `if 'height' not in gdf.columns: gdf['height'] = default`, then
   * `gdf['surface_type'] = ...` and the other three descriptive columns.
   */
  function Tag(ds: Dataset, p: TagPolicy): (r: Dataset)
    ensures r.crs == ds.crs
    ensures r.columns == ds.columns + {HeightColumn} + DescriptiveColumns
    ensures |r.features| == |ds.features|
    ensures forall i :: 0 <= i < |ds.features| ==> r.features[i].geometry == ds.features[i].geometry
    ensures forall i :: 0 <= i < |ds.features| ==>
              Retagged(ds.features[i].attributes, r.features[i].attributes, p, HeightColumn in ds.columns)
    ensures WellFormed(ds) ==> WellFormed(r)
  {
    var hasHeight := HeightColumn in ds.columns;
    var n := |ds.features|;
    Dataset(
      seq(n, i requires 0 <= i < n =>
            ds.features[i].(attributes := TagRow(ds.features[i].attributes, p, hasHeight))),
      ds.columns + {HeightColumn} + DescriptiveColumns,
      ds.crs)
  }

  /** Retagging a row that already carries the literals, once the height column exists, leaves it as it is. */
  lemma RetagTagged(a: map<string, Value>, b: map<string, Value>, p: TagPolicy)
    requires Described(a, p)
    requires Retagged(a, b, p, true)
    ensures b == a
  {
  }

  /** Tagging twice is tagging once: the height column now exists and the literals are rewritten unchanged. */
  lemma TagIdempotent(ds: Dataset, p: TagPolicy)
    ensures Tag(Tag(ds, p), p) == Tag(ds, p)
  {
    var once := Tag(ds, p);
    var twice := Tag(once, p);
    forall i | 0 <= i < |once.features|
      ensures twice.features[i] == once.features[i]
    {
      assert Retagged(ds.features[i].attributes, once.features[i].attributes, p, HeightColumn in ds.columns);
      RetagTagged(once.features[i].attributes, twice.features[i].attributes, p);
    }
    assert twice.features == once.features;
  }

  /** A height column that exists keeps a missing (`Null`) value: the test is on the column, not on nulls. */
  lemma NullHeightIsNotFilled(ds: Dataset, p: TagPolicy, i: nat)
    requires HeightColumn in ds.columns
    requires i < |ds.features|
    requires HeightColumn in ds.features[i].attributes && ds.features[i].attributes[HeightColumn] == Null
    ensures Tag(ds, p).features[i].attributes[HeightColumn] == Null
  {
  }
}

=== FILE: surface_loader.dfy ===
/**
 * The 3D viewer's surface loader: which layers are visible, the entities it
 * created grouped by category, the road styling tables, the capped building
 * and road loaders, the OLS loader's geometry filter, and the statistics.
 * Cesium and `fetch` are abstract: an entity is a record, and the network is
 * a map from URL to the features of a parsed GeoJSON response.
 */
module SurfaceLoader {
  import opened Wrappers
  import opened JsText
  import GeoData

  datatype Color =
    | Red | Orange | Yellow | LightBlue | LightGreen | LightGray | Gray | White
    | Cyan | Purple | Pink | Green | Blue | Magenta

  /** A polygon, or a polyline of the given width. */
  datatype Shape = Area | Line(width: nat)

  /** A viewer entity: its name, whether it is shown, its material colour and its shape. */
  datatype Entity = Entity(name: string, show: bool, color: Color, shape: Shape)

  /** `loadedSurfaces`: the entities created so far, by category. */
  datatype Surfaces = Surfaces(approach: seq<Entity>, reseaux: seq<Entity>, dxf: seq<Entity>)

  /** The loader's state: `loadedSurfaces` and `surfaceVisibility`. */
  datatype Loader = Loader(surfaces: Surfaces, visibility: map<string, bool>)

  const InitialLayers: set<string> := {"approach", "buildings", "roads", "ols", "natural", "transport"}

  /** `surfaceVisibility[layer]` read as a boolean: a layer never set reads as undefined, which is falsy. */
  predicate Flag(visibility: map<string, bool>, layer: string) {
    layer in visibility && visibility[layer]
  }

  /** The constructor: no entities, only the approach layer visible. */
  function NewLoader(): (l: Loader)
    ensures l.visibility.Keys == InitialLayers
    ensures forall layer :: Flag(l.visibility, layer) <==> layer == "approach"
    ensures l.surfaces == Surfaces([], [], [])
  {
    Loader(
      Surfaces([], [], []),
      map["approach" := true, "buildings" := false, "roads" := false,
          "ols" := false, "natural" := false, "transport" := false])
  }

  // ---------------------------------------------------------------- toggling

  datatype Category = Approach | Reseaux | Dxf

  /** Whether toggling `layer` updates entity `e` held in `category`. */
  predicate Governs(layer: string, category: Category, e: Entity) {
    match category
    case Approach => layer == "approach"
    case Dxf => layer == "ols"
    case Reseaux =>
      || (layer == "buildings" && Includes(e.name, "Building"))
      || (layer == "roads" && Includes(e.name, "Road"))
  }

  /**
   * One category before and after a toggle: the same entities in the same
   * order, each governed one now showing `visible`, every other one
   * untouched, and nothing but `show` ever changed.
   */
  predicate Retoggled(before: seq<Entity>, after: seq<Entity>, layer: string, category: Category, visible: bool) {
    && |after| == |before|
    && forall i :: 0 <= i < |before| ==>
         && after[i].(show := before[i].show) == before[i]
         && (Governs(layer, category, before[i]) ==> after[i].show == visible)
         && (!Governs(layer, category, before[i]) ==> after[i] == before[i])
  }

  /** `forEach(entity => entity.show = visible)`. */
  function ShowAll(es: seq<Entity>, visible: bool): seq<Entity> {
    seq(|es|, i requires 0 <= i < |es| => es[i].(show := visible))
  }

  /** The `buildings`/`roads` case: only entities whose name contains the layer's word. */
  function ShowNamed(es: seq<Entity>, layer: string, visible: bool): seq<Entity> {
    seq(|es|, i requires 0 <= i < |es| =>
          if (layer == "buildings" && Includes(es[i].name, "Building"))
             || (layer == "roads" && Includes(es[i].name, "Road"))
          then es[i].(show := visible)
          else es[i])
  }

  /**
   * `toggleSurfaceVisibility`: negate the layer's flag, push the new value to
   * the entities the `switch` selects, and return it.
   */
  function ToggleSurfaceVisibility(l: Loader, layer: string): (r: (Loader, bool))
    ensures r.1 == !Flag(l.visibility, layer)
    ensures r.0.visibility == l.visibility[layer := r.1]
    ensures Retoggled(l.surfaces.approach, r.0.surfaces.approach, layer, Approach, r.1)
    ensures Retoggled(l.surfaces.reseaux, r.0.surfaces.reseaux, layer, Reseaux, r.1)
    ensures Retoggled(l.surfaces.dxf, r.0.surfaces.dxf, layer, Dxf, r.1)
  {
    var visible := !Flag(l.visibility, layer);
    var s := l.surfaces;
    var s' :=
      if layer == "approach" then s.(approach := ShowAll(s.approach, visible))
      else if layer == "ols" then s.(dxf := ShowAll(s.dxf, visible))
      else if layer == "buildings" || layer == "roads" then s.(reseaux := ShowNamed(s.reseaux, layer, visible))
      else s;
    (Loader(s', l.visibility[layer := visible]), visible)
  }

  /** Two toggles give the layer its original flag back; the map itself is restored when the layer was already in it. */
  lemma ToggleTwiceRestoresFlag(l: Loader, layer: string)
    ensures var once := ToggleSurfaceVisibility(l, layer);
            var twice := ToggleSurfaceVisibility(once.0, layer);
            && twice.1 == Flag(l.visibility, layer)
            && Flag(twice.0.visibility, layer) == Flag(l.visibility, layer)
            && (layer in l.visibility ==> twice.0.visibility == l.visibility)
  {
  }

  /** Every entity the layer governs shows the layer's current flag. */
  predicate InStep(es: seq<Entity>, layer: string, category: Category, flag: bool) {
    forall i :: 0 <= i < |es| && Governs(layer, category, es[i]) ==> es[i].show == flag
  }

  lemma RetoggledTwice(before: seq<Entity>, mid: seq<Entity>, after: seq<Entity>,
                       layer: string, category: Category, v1: bool, v2: bool)
    requires Retoggled(before, mid, layer, category, v1)
    requires Retoggled(mid, after, layer, category, v2)
    requires InStep(before, layer, category, v2)
    ensures after == before
  {
  }

  /**
   * When the layer is in the map and its entities agree with its flag, two
   * toggles restore the whole loader state.
   */
  lemma ToggleTwiceRestoresLoader(l: Loader, layer: string)
    requires layer in l.visibility
    requires InStep(l.surfaces.approach, layer, Approach, l.visibility[layer])
    requires InStep(l.surfaces.reseaux, layer, Reseaux, l.visibility[layer])
    requires InStep(l.surfaces.dxf, layer, Dxf, l.visibility[layer])
    ensures ToggleSurfaceVisibility(ToggleSurfaceVisibility(l, layer).0, layer).0 == l
  {
    var once := ToggleSurfaceVisibility(l, layer);
    var twice := ToggleSurfaceVisibility(once.0, layer);
    RetoggledTwice(l.surfaces.approach, once.0.surfaces.approach, twice.0.surfaces.approach, layer, Approach, once.1, twice.1);
    RetoggledTwice(l.surfaces.reseaux, once.0.surfaces.reseaux, twice.0.surfaces.reseaux, layer, Reseaux, once.1, twice.1);
    RetoggledTwice(l.surfaces.dxf, once.0.surfaces.dxf, twice.0.surfaces.dxf, layer, Dxf, once.1, twice.1);
  }

  /** A layer the `switch` has no case for is still flipped (and added if new), but no entity changes. */
  lemma UnhandledLayerChangesNoEntity(l: Loader, layer: string)
    requires layer != "approach" && layer != "ols" && layer != "buildings" && layer != "roads"
    ensures ToggleSurfaceVisibility(l, layer).0.surfaces == l.surfaces
    ensures Flag(ToggleSurfaceVisibility(l, layer).0.visibility, layer) == !Flag(l.visibility, layer)
  {
  }

  // ------------------------------------------------------------ road styling

  const RoadClasses: seq<string> :=
    ["motorway", "trunk", "primary", "secondary", "tertiary", "residential", "service"]

  /** `getRoadColor`: the class's colour, white for any class not in the table. */
  function RoadColor(roadClass: string): (c: Color)
    ensures c == White <==> roadClass !in RoadClasses
  {
    if roadClass == "motorway" then Red
    else if roadClass == "trunk" then Orange
    else if roadClass == "primary" then Yellow
    else if roadClass == "secondary" then LightBlue
    else if roadClass == "tertiary" then LightGreen
    else if roadClass == "residential" then LightGray
    else if roadClass == "service" then Gray
    else White
  }

  /** `getRoadWidth`: between 1 and 8, and 1 for any class not in the table. */
  function RoadWidth(roadClass: string): (w: nat)
    ensures 1 <= w <= 8
    ensures roadClass !in RoadClasses ==> w == 1
  {
    if roadClass == "motorway" then 8
    else if roadClass == "trunk" then 6
    else if roadClass == "primary" then 5
    else if roadClass == "secondary" then 4
    else if roadClass == "tertiary" then 3
    else if roadClass == "residential" then 2
    else 1
  }

  /** Widths fall strictly along the class ranking, and the known classes have pairwise distinct colours. */
  lemma RoadStylesFollowRank()
    ensures forall i, j :: 0 <= i < j < |RoadClasses| ==> RoadWidth(RoadClasses[i]) > RoadWidth(RoadClasses[j])
    ensures forall i, j :: 0 <= i < j < |RoadClasses| ==> RoadColor(RoadClasses[i]) != RoadColor(RoadClasses[j])
  {
  }

  // -------------------------------------------------------------- statistics

  datatype SurfaceStats = SurfaceStats(approach: nat, dxf: nat, reseaux: nat, total: nat)

  /** `getSurfaceStats`: per-category counts and their sum. */
  function GetSurfaceStats(l: Loader): (s: SurfaceStats)
    ensures s.approach == |l.surfaces.approach| && s.dxf == |l.surfaces.dxf| && s.reseaux == |l.surfaces.reseaux|
    ensures s.total == s.approach + s.dxf + s.reseaux
  {
    var a := |l.surfaces.approach|;
    var d := |l.surfaces.dxf|;
    var n := |l.surfaces.reseaux|;
    SurfaceStats(a, d, n, a + d + n)
  }

  /** Toggling never creates or drops an entity. */
  lemma ToggleKeepsStats(l: Loader, layer: string)
    ensures GetSurfaceStats(ToggleSurfaceVisibility(l, layer).0) == GetSurfaceStats(l)
  {
  }

  // ----------------------------------------------------------------- loading

  /** A feature of a parsed GeoJSON response: its geometry type (none when it cannot be read) and two properties. */
  datatype GeoFeature = GeoFeature(geometry: Option<GeoData.GeometryKind>, name: JsValue, fclass: JsValue)

  /** The responses `fetch` + `response.json()` would parse; a URL that is absent rejects. */
  type Network = map<string, seq<GeoFeature>>

  const ApproachUrl: string := "./surface_approche_geojson/surfaceapproche.geojson"
  const BuildingsUrl: string := "./surface_approche_geojson/reseaux/gis_osm_buildings_a_free_1.geojson"
  const RoadsUrl: string := "./surface_approche_geojson/reseaux/gis_osm_roads_free_1.geojson"
  const MaxBuildings: nat := 1000
  const MaxRoads: nat := 500

  function Min(a: nat, b: nat): nat {
    if a < b then a else b
  }

  /**
   * How a loader reaches into a feature's coordinates: `coordinates[0].map`
   * (approach surfaces and buildings) or `coordinates.map` (roads).
   */
  datatype Access = FirstRing | AllCoordinates

  /**
   * Whether that access gets an array to map over for a geometry of kind
   * `k`: a GeometryCollection has no `coordinates`, and the first
   * coordinate of a Point is a number.
   */
  predicate Reaches(access: Access, k: GeoData.GeometryKind) {
    match access
    case FirstRing => k != GeoData.Point && k != GeoData.GeometryCollection
    case AllCoordinates => k != GeoData.GeometryCollection
  }

  /** Feature `f` has a geometry that `access` can map over without a TypeError. */
  predicate ReadableFeature(f: GeoFeature, access: Access) {
    f.geometry.Some? && Reaches(access, f.geometry.value)
  }

  /** The first `n` features (or all, if fewer) can be read through `access`. */
  predicate Readable(features: seq<GeoFeature>, n: nat, access: Access) {
    forall i :: 0 <= i < Min(|features|, n) ==> ReadableFeature(features[i], access)
  }

  /** The response for `url` arrived and its first `cap` features can be turned into entities. */
  predicate Loads(net: Network, url: string, cap: nat, access: Access) {
    url in net && Readable(net[url], cap, access)
  }

  /** The response for `url` arrived and every one of its features can be read. */
  predicate LoadsAll(net: Network, url: string, access: Access) {
    url in net && Readable(net[url], |net[url]|, access)
  }

  /** The approach entity for the feature at `index`: numbered from 1, shown, yellow and filled. */
  function ApproachEntity(index: nat): (e: Entity)
    ensures StartsWith(e.name, "Approach Surface ") && e.name[|"Approach Surface "|..] == DecimalString(index + 1)
    ensures e.show && e.color == Yellow && e.shape == Area
  {
    Entity("Approach Surface " + DecimalString(index + 1), true, Yellow, Area)
  }

  /** Two names made of the same prefix and a rendered number are equal only for equal numbers. */
  lemma NumberedNamesDiffer(prefix: string, a: nat, b: nat)
    requires a != b
    ensures prefix + DecimalString(a) != prefix + DecimalString(b)
  {
    if prefix + DecimalString(a) == prefix + DecimalString(b) {
      assert (prefix + DecimalString(a))[|prefix|..] == DecimalString(a);
      assert (prefix + DecimalString(b))[|prefix|..] == DecimalString(b);
      DecimalRoundTrip(a);
      DecimalRoundTrip(b);
    }
  }

  /** Distinct approach features give entities with distinct names. */
  lemma ApproachNamesDistinct(i: nat, j: nat)
    requires i != j
    ensures ApproachEntity(i).name != ApproachEntity(j).name
  {
    NumberedNamesDiffer("Approach Surface ", i + 1, j + 1);
  }

  /**
   * `loadApproachSurface`: one entity per feature, replacing the approach
   * category; an unreadable geometry aborts before the assignment.
   */
  function LoadApproachSurface(l: Loader, net: Network): (r: (Loader, seq<Entity>))
    ensures r.0.visibility == l.visibility
    ensures r.0.surfaces.reseaux == l.surfaces.reseaux && r.0.surfaces.dxf == l.surfaces.dxf
    ensures LoadsAll(net, ApproachUrl, FirstRing) ==>
              && GetSurfaceStats(r.0).approach == |net[ApproachUrl]|
              && r.0.surfaces.approach == r.1
              && forall i :: 0 <= i < |r.1| ==> r.1[i] == ApproachEntity(i)
    ensures !LoadsAll(net, ApproachUrl, FirstRing) ==> r == (l, [])
  {
    if ApproachUrl !in net || !Readable(net[ApproachUrl], |net[ApproachUrl]|, FirstRing) then (l, [])
    else
      var n := |net[ApproachUrl]|;
      var es := seq(n, i requires 0 <= i < n => ApproachEntity(i));
      (l.(surfaces := l.surfaces.(approach := es)), es)
  }

  /**
   * The `for ... of` loop with a counter and `break` at the cap shared by the
   * building and road loaders: entities for the features in order until the
   * cap; `None` when a feature before the cap cannot be read (the error
   * that skips the rest of the loader).
   */
  method CollectCapped(features: seq<GeoFeature>, cap: nat, access: Access, make: GeoFeature -> Entity)
    returns (r: Option<seq<Entity>>)
    ensures r.Some? <==> Readable(features, cap, access)
    ensures r.Some? ==> |r.value| == Min(|features|, cap)
    ensures r.Some? ==> forall i :: 0 <= i < |r.value| ==> r.value[i] == make(features[i])
  {
    var entities: seq<Entity> := [];
    var count := 0;
    var i := 0;
    while i < |features|
      invariant i <= |features|
      invariant count == i == |entities| && count <= cap
      invariant forall j :: 0 <= j < i ==> ReadableFeature(features[j], access) && entities[j] == make(features[j])
    {
      if count >= cap {
        break;
      }
      if !ReadableFeature(features[i], access) {
        return None;
      }
      entities := entities + [make(features[i])];
      count := count + 1;
      i := i + 1;
    }
    return Some(entities);
  }

  /**
   * A Point building makes `coordinates[0].map` throw, so a response holding
   * one loads no building at all, while the same Point as a road is mapped.
   */
  lemma PointBuildingIsNotLoaded()
    ensures var net := map[BuildingsUrl := [GeoFeature(Some(GeoData.Point), Str("Hangar"), Undefined)]];
            !Loads(net, BuildingsUrl, MaxBuildings, FirstRing)
    ensures var net := map[RoadsUrl := [GeoFeature(Some(GeoData.Point), Str("Hangar"), Undefined)]];
            Loads(net, RoadsUrl, MaxRoads, AllCoordinates)
  {
    var f := GeoFeature(Some(GeoData.Point), Str("Hangar"), Undefined);
    assert !ReadableFeature([f][0], FirstRing);
  }

  /** A building is named after its `name` property, or "Unnamed", so the buildings toggle always reaches it. */
  function BuildingEntity(f: GeoFeature, show: bool): (e: Entity)
    ensures e.name == "Building: " + OrElse(f.name, "Unnamed")
    ensures Governs("buildings", Reseaux, e)
    ensures e.show == show && e.color == LightGray && e.shape == Area
  {
    var e := Entity("Building: " + OrElse(f.name, "Unnamed"), show, LightGray, Area);
    assert e.name[0..] == e.name;
    e
  }

  /**
   * A road is named after its `name` property, or else its class as the
   * template renders it ("null" or "undefined" when missing); its style is
   * looked up by that rendering, so a missing class is a white, 1-wide
   * line, and the roads toggle always reaches it.
   */
  function RoadEntity(f: GeoFeature, show: bool): (e: Entity)
    ensures Truthy(f.name) ==> e.name == "Road: " + f.name.s
    ensures !Truthy(f.name) ==> e.name == "Road: " + Render(f.fclass)
    ensures e.color == RoadColor(Render(f.fclass)) && e.shape == Line(RoadWidth(Render(f.fclass)))
    ensures f.fclass.Null? && !Truthy(f.name) ==> e.name == "Road: null" && e.color == White && e.shape == Line(1)
    ensures Governs("roads", Reseaux, e)
    ensures e.show == show
  {
    var roadClass := Render(f.fclass);
    var e := Entity("Road: " + (if Truthy(f.name) then f.name.s else roadClass),
                    show, RoadColor(roadClass), Line(RoadWidth(roadClass)));
    assert e.name[0..] == e.name;
    e
  }

  /**
   * `loadBuildings`: at most 1000 entities, one per feature of a prefix of
   * the response in order, appended to `reseaux`; on any error nothing is
   * appended.
   */
  method LoadBuildings(l: Loader, net: Network) returns (l': Loader, created: seq<Entity>)
    ensures |created| <= MaxBuildings
    ensures l'.visibility == l.visibility
    ensures l'.surfaces.approach == l.surfaces.approach && l'.surfaces.dxf == l.surfaces.dxf
    ensures l'.surfaces.reseaux == l.surfaces.reseaux + created
    ensures Loads(net, BuildingsUrl, MaxBuildings, FirstRing) ==>
              && |created| == Min(|net[BuildingsUrl]|, MaxBuildings)
              && forall i :: 0 <= i < |created| ==>
                   created[i] == BuildingEntity(net[BuildingsUrl][i], Flag(l.visibility, "buildings"))
    ensures !Loads(net, BuildingsUrl, MaxBuildings, FirstRing) ==> created == [] && l' == l
  {
    if BuildingsUrl !in net {
      return l, [];
    }
    var show := Flag(l.visibility, "buildings");
    var collected := CollectCapped(net[BuildingsUrl], MaxBuildings, FirstRing, f => BuildingEntity(f, show));
    if collected.None? {
      return l, [];
    }
    created := collected.value;
    l' := l.(surfaces := l.surfaces.(reseaux := l.surfaces.reseaux + created));
  }

  /**
   * `loadRoads`: at most 500 entities, one per feature of a prefix of the
   * response in order, styled by road class and appended to `reseaux`; on
   * any error nothing is appended.
   */
  method LoadRoads(l: Loader, net: Network) returns (l': Loader, created: seq<Entity>)
    ensures |created| <= MaxRoads
    ensures l'.visibility == l.visibility
    ensures l'.surfaces.approach == l.surfaces.approach && l'.surfaces.dxf == l.surfaces.dxf
    ensures l'.surfaces.reseaux == l.surfaces.reseaux + created
    ensures Loads(net, RoadsUrl, MaxRoads, AllCoordinates) ==>
              && |created| == Min(|net[RoadsUrl]|, MaxRoads)
              && forall i :: 0 <= i < |created| ==>
                   created[i] == RoadEntity(net[RoadsUrl][i], Flag(l.visibility, "roads"))
    ensures !Loads(net, RoadsUrl, MaxRoads, AllCoordinates) ==> created == [] && l' == l
  {
    if RoadsUrl !in net {
      return l, [];
    }
    var show := Flag(l.visibility, "roads");
    var collected := CollectCapped(net[RoadsUrl], MaxRoads, AllCoordinates, f => RoadEntity(f, show));
    if collected.None? {
      return l, [];
    }
    created := collected.value;
    l' := l.(surfaces := l.surfaces.(reseaux := l.surfaces.reseaux + created));
  }

  // ------------------------------------------------------------ OLS surfaces

  const OlsDir: string := "./surface_approche_geojson/dxf_surfaces/"

  /** The eight OLS files, without their `.geojson` extension, in loading order. */
  const OlsStems: seq<string> := [
    "suraface dapproche aligned",
    "suraface de transition",
    "suraface interieuere de transition",
    "surface conique aligned",
    "surface d'atterrissage interrompu",
    "surface de montee au decollage",
    "surface horizontal interieur aligned",
    "surface interieure dapproche"
  ]

  /** The colour of each OLS file, by position. */
  const OlsColors: seq<Color> := [Cyan, Purple, Pink, Orange, Red, Green, Blue, Magenta]

  function OlsUrl(file: nat): string
    requires file < |OlsStems|
  {
    OlsDir + OlsStems[file] + ".geojson"
  }

  /** Only polygons and line strings are drawn. */
  predicate Drawable(k: GeoData.GeometryKind) {
    k == GeoData.Polygon || k == GeoData.LineString
  }

  /**
   * The entity for the feature at `index` of OLS file `file`, numbered from
   * 1 in its name: a filled area for a polygon, a 3-wide line otherwise, in
   * the file's colour.
   */
  function OlsEntity(file: nat, index: nat, kind: GeoData.GeometryKind, show: bool): (e: Entity)
    requires file < |OlsStems|
    ensures e.show == show && e.color == OlsColors[file]
    ensures kind == GeoData.Polygon ==> e.name == OlsName("OLS: ", file, index) && e.shape == Area
    ensures kind != GeoData.Polygon ==> e.name == OlsName("OLS Line: ", file, index) && e.shape == Line(3)
  {
    if kind == GeoData.Polygon then
      Entity(OlsName("OLS: ", file, index), show, OlsColors[file], Area)
    else
      Entity(OlsName("OLS Line: ", file, index), show, OlsColors[file], Line(3))
  }

  function OlsName(kindPrefix: string, file: nat, index: nat): string
    requires file < |OlsStems|
  {
    kindPrefix + OlsStems[file] + " - " + DecimalString(index + 1)
  }

  /** Within one OLS file, features at distinct positions give entities with distinct names. */
  lemma OlsNamesDistinct(file: nat, i: nat, j: nat, ki: GeoData.GeometryKind, kj: GeoData.GeometryKind, show: bool)
    requires file < |OlsStems| && i != j
    ensures OlsEntity(file, i, ki, show).name != OlsEntity(file, j, kj, show).name
  {
    var ni := OlsEntity(file, i, ki, show).name;
    var nj := OlsEntity(file, j, kj, show).name;
    if (ki == GeoData.Polygon) == (kj == GeoData.Polygon) {
      var prefix := (if ki == GeoData.Polygon then "OLS: " else "OLS Line: ") + OlsStems[file] + " - ";
      assert ni == prefix + DecimalString(i + 1);
      assert nj == prefix + DecimalString(j + 1);
      NumberedNamesDiffer(prefix, i + 1, j + 1);
    } else {
      assert ni[4] != nj[4];
    }
  }

  /** Feature `k` is reached (every earlier geometry could be read) and is drawn. */
  predicate Drawn(rest: seq<GeoFeature>, k: nat)
    requires k < |rest|
  {
    && (forall j :: 0 <= j < k ==> rest[j].geometry.Some?)
    && rest[k].geometry.Some? && Drawable(rest[k].geometry.value)
  }

  lemma DrawnShift(rest: seq<GeoFeature>)
    requires |rest| > 0 && rest[0].geometry.Some?
    ensures forall k :: 1 <= k < |rest| ==> (Drawn(rest, k) <==> Drawn(rest[1..], k - 1))
  {
  }

  /**
   * The `forEach` over one file's features from position `offset` on: one
   * entity per Polygon or LineString feature, other types skipped, and the
   * first feature whose geometry cannot be read ends the file (the entities
   * already pushed stay).
   */
  function OlsEntitiesFrom(file: nat, rest: seq<GeoFeature>, offset: nat, show: bool): (r: seq<Entity>)
    requires file < |OlsStems|
    ensures forall e :: e in r ==>
              exists k :: 0 <= k < |rest| && Drawn(rest, k) && e == OlsEntity(file, offset + k, rest[k].geometry.value, show)
    ensures forall k :: 0 <= k < |rest| && Drawn(rest, k) ==>
              OlsEntity(file, offset + k, rest[k].geometry.value, show) in r
    ensures NoDuplicates(r)
    decreases |rest|
  {
    if |rest| == 0 then []
    else
      match rest[0].geometry
      case None => []
      case Some(kind) =>
        var tail := OlsEntitiesFrom(file, rest[1..], offset + 1, show);
        DrawnShift(rest);
        if Drawable(kind) then
          var head := OlsEntity(file, offset, kind, show);
          HeadNotInTail(file, rest[1..], offset, kind, show, tail);
          PrependDistinct(head, tail);
          [head] + tail
        else tail
  }

  /** Every entity occurs at most once. */
  predicate NoDuplicates(es: seq<Entity>) {
    forall i, j :: 0 <= i < j < |es| ==> es[i] != es[j]
  }

  lemma PrependDistinct(head: Entity, tail: seq<Entity>)
    requires head !in tail && NoDuplicates(tail)
    ensures NoDuplicates([head] + tail)
  {
    var r := [head] + tail;
    forall i, j | 0 <= i < j < |r|
      ensures r[i] != r[j]
    {
      if i == 0 {
        assert r[j] == tail[j - 1];
      } else {
        assert r[i] == tail[i - 1] && r[j] == tail[j - 1];
      }
    }
  }

  /** The entity of the feature at `offset` is not among those of the later features. */
  lemma HeadNotInTail(file: nat, later: seq<GeoFeature>, offset: nat, kind: GeoData.GeometryKind, show: bool, tail: seq<Entity>)
    requires file < |OlsStems|
    requires forall e :: e in tail ==>
               exists k :: 0 <= k < |later| && Drawn(later, k) && e == OlsEntity(file, offset + 1 + k, later[k].geometry.value, show)
    ensures OlsEntity(file, offset, kind, show) !in tail
  {
    var head := OlsEntity(file, offset, kind, show);
    if head in tail {
      var k :| 0 <= k < |later| && Drawn(later, k) && head == OlsEntity(file, offset + 1 + k, later[k].geometry.value, show);
      OlsNamesDistinct(file, offset, offset + 1 + k, kind, later[k].geometry.value, show);
    }
  }

  /**
   * What OLS file `file` contributes (the body of the per-file `try`):
   * nothing when its request fails, and otherwise exactly the entities of
   * its reached Polygon and LineString features.
   */
  function FileContribution(net: Network, file: nat, show: bool): (r: seq<Entity>)
    requires file < |OlsStems|
    ensures OlsUrl(file) !in net ==> r == []
    ensures forall e :: e in r <==> exists k :: 0 <= k && DrawnFrom(net, show, file, k, e)
    ensures NoDuplicates(r)
  {
    if OlsUrl(file) in net then
      var r := OlsEntitiesFrom(file, net[OlsUrl(file)], 0, show);
      FileEntitiesDrawn(net, show, file, r);
      r
    else []
  }

  lemma FileEntitiesDrawn(net: Network, show: bool, file: nat, r: seq<Entity>)
    requires file < |OlsStems| && OlsUrl(file) in net
    requires r == OlsEntitiesFrom(file, net[OlsUrl(file)], 0, show)
    ensures forall e :: e in r <==> exists k :: 0 <= k && DrawnFrom(net, show, file, k, e)
    ensures NoDuplicates(r)
  {
    var rest := net[OlsUrl(file)];
    forall e | e in r
      ensures exists k :: 0 <= k && DrawnFrom(net, show, file, k, e)
    {
      var k :| 0 <= k < |rest| && Drawn(rest, k) && e == OlsEntity(file, 0 + k, rest[k].geometry.value, show);
      assert DrawnFrom(net, show, file, k, e);
    }
    forall e | exists k :: 0 <= k && DrawnFrom(net, show, file, k, e)
      ensures e in r
    {
      var k :| 0 <= k && DrawnFrom(net, show, file, k, e);
      assert OlsEntity(file, 0 + k, rest[k].geometry.value, show) in r;
    }
  }

  /** The contributions of the first `n` OLS files, in file order. */
  function Contributions(net: Network, n: nat, show: bool): seq<Entity>
    requires n <= |OlsStems|
  {
    if n == 0 then [] else Contributions(net, n - 1, show) + FileContribution(net, n - 1, show)
  }

  /**
   * `loadOLSSurfaces`: every file in turn, each failure caught and logged
   * before the next file; the result replaces the `dxf` category.
   */
  method LoadOLSSurfaces(l: Loader, net: Network) returns (l': Loader, all: seq<Entity>)
    ensures all == Contributions(net, |OlsStems|, Flag(l.visibility, "ols"))
    ensures l'.visibility == l.visibility
    ensures l'.surfaces == l.surfaces.(dxf := all)
  {
    var show := Flag(l.visibility, "ols");
    all := [];
    for i := 0 to |OlsStems|
      invariant all == Contributions(net, i, show)
    {
      var url := OlsUrl(i);
      if url in net {
        all := all + OlsEntitiesFrom(i, net[url], 0, show);
      }
    }
    l' := l.(surfaces := l.surfaces.(dxf := all));
  }

  /** A failing file does not stop later ones: whatever any file contributes is in the loaded layer. */
  lemma {:induction false} EveryFileContributes(net: Network, n: nat, show: bool, file: nat, e: Entity)
    requires file < n <= |OlsStems|
    requires e in FileContribution(net, file, show)
    ensures e in Contributions(net, n, show)
    decreases n
  {
    if file < n - 1 {
      EveryFileContributes(net, n - 1, show, file, e);
    }
  }

  /** `e` is the entity drawn for the reached Polygon or LineString feature `k` of OLS file `file`. */
  predicate DrawnFrom(net: Network, show: bool, file: nat, k: nat, e: Entity) {
    && file < |OlsStems|
    && OlsUrl(file) in net
    && k < |net[OlsUrl(file)]|
    && Drawn(net[OlsUrl(file)], k)
    && e == OlsEntity(file, k, net[OlsUrl(file)][k].geometry.value, show)
  }

  /**
   * Every entity of the loaded layer comes from a reached Polygon or
   * LineString feature of some file whose request succeeded.
   */
  lemma {:induction false} OnlyDrawnFeaturesContribute(net: Network, n: nat, show: bool, e: Entity)
    requires n <= |OlsStems|
    requires e in Contributions(net, n, show)
    ensures exists file, k :: 0 <= file < n && 0 <= k && DrawnFrom(net, show, file, k, e)
    decreases n
  {
    var earlier := Contributions(net, n - 1, show);
    var last := FileContribution(net, n - 1, show);
    assert Contributions(net, n, show) == earlier + last;
    if e in earlier {
      OnlyDrawnFeaturesContribute(net, n - 1, show, e);
    }
  }

  /**
   * `loadAllSurfaces`: the approach surface, then the OLS surfaces; both
   * catch their own errors, so it always reports success. Buildings and
   * roads are not loaded.
   */
  method LoadAllSurfaces(l: Loader, net: Network) returns (l': Loader, ok: bool)
    ensures ok
    ensures l'.visibility == l.visibility
    ensures l'.surfaces.reseaux == l.surfaces.reseaux
    ensures l'.surfaces.dxf == Contributions(net, |OlsStems|, Flag(l.visibility, "ols"))
    ensures LoadsAll(net, ApproachUrl, FirstRing) ==>
              && |l'.surfaces.approach| == |net[ApproachUrl]|
              && forall i :: 0 <= i < |l'.surfaces.approach| ==> l'.surfaces.approach[i] == ApproachEntity(i)
    ensures !LoadsAll(net, ApproachUrl, FirstRing) ==> l'.surfaces.approach == l.surfaces.approach
  {
    var approached := LoadApproachSurface(l, net);
    var olsEntities;
    l', olsEntities := LoadOLSSurfaces(approached.0, net);
    ok := true;
  }

  /**
   * Substring matching lets a road toggle with the buildings: a road named
   * "Building Lane" becomes visible when the buildings layer is switched on.
   */
  lemma BuildingsToggleReachesRoadNamedBuilding()
    ensures var road := RoadEntity(GeoFeature(Some(GeoData.LineString), Str("Building Lane"), Str("service")), false);
            var l := Loader(Surfaces([], [road], []), NewLoader().visibility);
            ToggleSurfaceVisibility(l, "buildings").0.surfaces.reseaux[0].show
  {
    var name := "Road: Building Lane";
    assert StartsWith(name[6..], "Building");
  }
}

=== FILE: surface_pipeline.dfy ===
/**
 * The steps every surface converter runs inside its `try` block: load the
 * source, bring it to WGS84, optionally tag it, and write it as GeoJSON into
 * the processed-data directory.
 */
module SurfacePipeline {
  import opened Wrappers
  import opened GeoData
  import opened CrsNormalizer
  import opened MetadataTagger
  import opened FileStore

  /** The directory every converter writes into, and the chain `makedirs` creates for it. */
  const OutputDir: Path := "data/processed"
  const OutputDirChain: seq<Path> := ["data", OutputDir]

  /**
   * `data` and `data/processed` each exist already or can be created: no
   * regular file is in the way, and the directory each is created in is not
   * read-only.
   */
  predicate OutputDirMakeable(d: Disk) {
    && ("data" in d.dirs || ("data" !in d.files && WorkingDir !in d.readOnly))
    && (OutputDir in d.dirs || (OutputDir !in d.files && "data" !in d.readOnly))
  }

  /**
   * Once `data/processed` exists, a file in it can be written: the target is
   * neither a directory nor read-only, and a new file needs the directory to
   * accept new entries.
   */
  predicate OutputWritable(d: Disk, output: Path) {
    && output !in d.dirs && output !in d.readOnly
    && (output !in d.files ==> OutputDir !in d.readOnly)
  }

  /** Making the output directory succeeds exactly when both directories are makeable, and then it exists. */
  lemma MakeOutputDir(d: Disk)
    ensures Distinct(OutputDirChain)
    ensures MakeDirs(d, WorkingDir, OutputDirChain).1 <==> OutputDirMakeable(d)
    ensures MakeDirs(d, WorkingDir, OutputDirChain).1 ==> OutputDir in MakeDirs(d, WorkingDir, OutputDirChain).0.dirs
    ensures forall p :: p in MakeDirs(d, WorkingDir, OutputDirChain).0.dirs ==> p in d.dirs || p == "data" || p == OutputDir
  {
    assert Distinct(OutputDirChain);
    assert Creatable(d, WorkingDir, OutputDirChain, 0) <==> "data" in d.dirs || ("data" !in d.files && WorkingDir !in d.readOnly);
    assert Creatable(d, WorkingDir, OutputDirChain, 1) <==> OutputDir in d.dirs || (OutputDir !in d.files && "data" !in d.readOnly);
  }

  /**
   * How one converter function ends: it returns a result (its boolean is
   * `result.Success?`), or an exception raised outside its `try` escapes it.
   */
  datatype Conversion<R> =
    | Returned(result: Result<R, ConversionError>, disk: Disk)
    | Raised(error: ConversionError, disk: Disk)
  {
    predicate Succeeded() {
      Returned? && result.Success?
    }
  }

  /** What a conversion that got through saving knows: the loaded and the saved dataset and the disk. */
  datatype Saved = Saved(loaded: Dataset, saved: Dataset, disk: Disk)

  /** The source reads and can be brought to WGS84. */
  predicate Converts(d: Disk, project: Projection, source: Path) {
    ReadFile(d, source).Success? && Normalize(project, ReadFile(d, source).value).Success?
  }

  /**
   * The saved dataset is the loaded one in WGS84: each geometry normalized,
   * the attributes tagged by `tags` when given and otherwise passed through.
   */
  predicate Prepared(project: Projection, loaded: Dataset, saved: Dataset, tags: Option<TagPolicy>) {
    && saved.crs == Some(Wgs84)
    && |saved.features| == |loaded.features|
    && (forall i :: 0 <= i < |loaded.features| ==>
          NormalizedGeometry(project, loaded.crs, loaded.features[i].geometry, saved.features[i].geometry))
    && (tags.None? ==>
          && saved.columns == loaded.columns
          && forall i :: 0 <= i < |loaded.features| ==> saved.features[i].attributes == loaded.features[i].attributes)
    && (tags.Some? ==>
          && saved.columns == loaded.columns + {HeightColumn} + DescriptiveColumns
          && forall i :: 0 <= i < |loaded.features| ==>
               Retagged(loaded.features[i].attributes, saved.features[i].attributes, tags.value, HeightColumn in loaded.columns))
  }

  /**
   * read_file, the CRS check with `to_crs`, the tagging (if any) and
   * `to_file`, in that order; the first failing step decides the error.
   */
  function LoadNormalizeSave(d: Disk, project: Projection, source: Path, output: Path, tags: Option<TagPolicy>)
    : (r: Result<Saved, ConversionError>)
    ensures r.Success? <==> Converts(d, project, source) && Writable(d, OutputDir, output)
    ensures ReadFile(d, source).Failure? ==> r == Failure(LoadFailure)
    ensures r.Failure? ==> r.error in {LoadFailure, UndefinedCrs, TransformFailure, ExportFailure}
    ensures r.Success? ==> r.value.loaded == ReadFile(d, source).value
    ensures r.Success? ==> Prepared(project, r.value.loaded, r.value.saved, tags)
    ensures r.Success? ==>
              r.value.disk == d.(files := d.files[output := GeoJson(r.value.saved.features, r.value.saved.columns)])
  {
    var loaded :- ReadFile(d, source);
    var normalized :- Normalize(project, loaded);
    var prepared := if tags.Some? then Tag(normalized, tags.value) else normalized;
    var written :- WriteGeoJson(d, OutputDir, output, prepared);
    Success(Saved(loaded, prepared, written))
  }
}

=== FILE: takeoff_conical.dfy ===
/**
 * The takeoff/conical converter script: the take-off climb ("montée") and
 * the 3D conical surfaces, each converted to GeoJSON with its own default
 * height and descriptive tags, then one combined verdict.
 */
module TakeoffConical {
  import opened Wrappers
  import opened GeoData
  import opened CrsNormalizer
  import opened MetadataTagger
  import opened FileStore
  import opened SurfacePipeline

  const TakeoffSource: Path := "data/raw/montee/montee.shp"
  const TakeoffOutput: Path := "data/processed/takeoff.geojson"
  const ConicalSource: Path := "data/raw/conique/conique_3D.shp"
  const ConicalOutput: Path := "data/processed/conical_3d.geojson"

  /** The conversion summary: feature count and the distinct geometry types. */
  datatype Report = Report(features: nat, geometryTypes: seq<GeometryKind>)

  /** The count of saved rows, and each geometry type among them listed exactly once. */
  function Summarize(s: Saved): (r: Report)
    ensures r.features == |s.saved.features|
    ensures forall k :: k in r.geometryTypes <==> exists i :: 0 <= i < |s.saved.features| && s.saved.features[i].geometry.kind == k
    ensures forall i, j :: 0 <= i < j < |r.geometryTypes| ==> r.geometryTypes[i] != r.geometryTypes[j]
  {
    var kinds := Kinds(s.saved.features);
    var r := Report(|s.saved.features|, Unique(kinds));
    assert forall k :: k in kinds <==> exists i :: 0 <= i < |s.saved.features| && s.saved.features[i].geometry.kind == k by {
      forall k | k in kinds
        ensures exists i :: 0 <= i < |s.saved.features| && s.saved.features[i].geometry.kind == k
      {
        var i :| 0 <= i < |kinds| && kinds[i] == k;
        assert s.saved.features[i].geometry.kind == k;
      }
      forall k | exists i :: 0 <= i < |s.saved.features| && s.saved.features[i].geometry.kind == k
        ensures k in kinds
      {
        var i :| 0 <= i < |s.saved.features| && s.saved.features[i].geometry.kind == k;
        assert kinds[i] == k;
      }
    }
    r
  }

  /**
   * `after` differs from `before` at most at `output`, which holds the loaded
   * dataset in WGS84 tagged with `tags`.
   */
  predicate WroteTagged(project: Projection, before: Disk, after: Disk, output: Path, loaded: Dataset, tags: TagPolicy) {
    && output in after.files
    && after.files[output].GeoJson?
    && Prepared(project, loaded, Dataset(after.files[output].features, after.files[output].columns, Some(Wgs84)), Some(tags))
    && after.files.Keys == before.files.Keys + {output}
    && forall q :: q in before.files && q != output ==> after.files[q] == before.files[q]
  }

  /** The report of a successful conversion counts the loaded rows and names exactly their geometry types. */
  predicate Reports(report: Report, loaded: Dataset) {
    && report.features == |loaded.features|
    && forall k :: k in report.geometryTypes <==> k in Kinds(loaded.features)
  }

  lemma SummarizeReports(project: Projection, s: Saved, tags: Option<TagPolicy>)
    requires Prepared(project, s.loaded, s.saved, tags)
    ensures Reports(Summarize(s), s.loaded)
  {
    assert Kinds(s.saved.features) == Kinds(s.loaded.features);
  }

  /**
   * `convert_montee_surface`: the output directory is created BEFORE the
   * `try`, so it exists even when the conversion then fails, and a failure
   * to create it escapes the function.
   */
  function ConvertTakeoff(d: Disk, project: Projection): (r: Conversion<Report>)
    ensures r.Raised? <==> !OutputDirMakeable(d)
    ensures r.Raised? ==> r.error == DirectoryFailure
    ensures r.Returned? ==> OutputDir in r.disk.dirs
    ensures r.Returned? ==>
              (r.result.Success? <==>
                 Converts(d, project, TakeoffSource) && OutputWritable(d, TakeoffOutput))
    ensures r.Returned? && r.result.Failure? ==> r.disk.files == d.files
    ensures r.Succeeded() ==> Reports(r.result.value, ReadFile(d, TakeoffSource).value)
    ensures r.Succeeded() ==> WroteTagged(project, d, r.disk, TakeoffOutput, ReadFile(d, TakeoffSource).value, TakeoffTags)
    ensures r.disk.readOnly == d.readOnly
    ensures d.dirs <= r.disk.dirs && forall p :: p in r.disk.dirs ==> p in d.dirs || p in OutputDirChain
    ensures forall q :: q in d.files && q != TakeoffOutput ==> q in r.disk.files && r.disk.files[q] == d.files[q]
    ensures forall q :: q in r.disk.files ==> q in d.files || q == TakeoffOutput
  {
    MakeOutputDir(d);
    var (d1, ok) := MakeDirs(d, WorkingDir, OutputDirChain);
    if !ok then Raised(DirectoryFailure, d1)
    else
      match LoadNormalizeSave(d1, project, TakeoffSource, TakeoffOutput, Some(TakeoffTags))
      case Failure(e) => Returned(Failure(e), d1)
      case Success(s) =>
        SummarizeReports(project, s, Some(TakeoffTags));
        Returned(Success(Summarize(s)), s.disk)
  }

  /**
   * `convert_conical_3d_surface`: everything inside the `try`, and no
   * directory is created, so the write needs `data/processed` to exist.
   */
  function ConvertConical(d: Disk, project: Projection): (r: Conversion<Report>)
    ensures r.Returned?
    ensures r.disk.dirs == d.dirs && r.disk.readOnly == d.readOnly
    ensures r.result.Success? <==> Converts(d, project, ConicalSource) && Writable(d, OutputDir, ConicalOutput)
    ensures r.result.Failure? ==> r.disk.files == d.files
    ensures r.Succeeded() ==> Reports(r.result.value, ReadFile(d, ConicalSource).value)
    ensures r.Succeeded() ==> WroteTagged(project, d, r.disk, ConicalOutput, ReadFile(d, ConicalSource).value, ConicalTags)
  {
    match LoadNormalizeSave(d, project, ConicalSource, ConicalOutput, Some(ConicalTags))
    case Failure(e) => Returned(Failure(e), d)
    case Success(s) =>
      SummarizeReports(project, s, Some(ConicalTags));
      Returned(Success(Summarize(s)), s.disk)
  }

  /** The script's closing message: one of four, chosen by the two booleans. */
  datatype Verdict = AllSucceeded | TakeoffOnly | ConicalOnly | AllFailed {
    predicate TakeoffSucceeded() {
      AllSucceeded? || TakeoffOnly?
    }
    predicate ConicalSucceeded() {
      AllSucceeded? || ConicalOnly?
    }
  }

  /** The `if/elif/elif/else` over the two results; the verdict records both booleans exactly. */
  function Judge(takeoff: bool, conical: bool): (v: Verdict)
    ensures v.TakeoffSucceeded() == takeoff && v.ConicalSucceeded() == conical
  {
    if takeoff && conical then AllSucceeded
    else if takeoff then TakeoffOnly
    else if conical then ConicalOnly
    else AllFailed
  }

  /** How the script ends: with a verdict, or with the traceback of an escaped exception. */
  datatype ScriptRun = Finished(verdict: Verdict, disk: Disk) | Crashed(disk: Disk)

  /**
   * The `__main__` block: takeoff, then conical on the disk takeoff left,
   * then the verdict. The conical conversion runs whatever takeoff returned,
   * and its outcome depends only on the disk the script started with.
   */
  function RunScript(d: Disk, project: Projection): (r: ScriptRun)
    ensures r.Crashed? <==> !OutputDirMakeable(d)
    ensures r.Finished? ==> (r.verdict.TakeoffSucceeded() <==> ConvertTakeoff(d, project).Succeeded())
    ensures r.Finished? ==>
              (r.verdict.ConicalSucceeded() <==>
                 Converts(d, project, ConicalSource) && OutputWritable(d, ConicalOutput))
    ensures r.Finished? ==> OutputDir in r.disk.dirs
    ensures r.Finished? && r.verdict.TakeoffSucceeded() ==>
              TakeoffOutput in r.disk.files && r.disk.files[TakeoffOutput] == ConvertTakeoff(d, project).disk.files[TakeoffOutput]
    ensures r.Finished? && r.verdict.ConicalSucceeded() ==>
              WroteTagged(project, ConvertTakeoff(d, project).disk, r.disk, ConicalOutput, ReadFile(d, ConicalSource).value, ConicalTags)
    ensures forall q :: q in d.files && q != TakeoffOutput && q != ConicalOutput ==>
              q in r.disk.files && r.disk.files[q] == d.files[q]
    ensures forall q :: q in r.disk.files ==> q in d.files || q == TakeoffOutput || q == ConicalOutput
  {
    var t := ConvertTakeoff(d, project);
    if t.Raised? then Crashed(t.disk)
    else
      assert ReadFile(t.disk, ConicalSource) == ReadFile(d, ConicalSource);
      var c := ConvertConical(t.disk, project);
      Finished(Judge(t.Succeeded(), c.Succeeded()), c.disk)
  }

  /**
   * A takeoff source that is missing does not stop the conical conversion:
   * with a convertible conical source the verdict is conical-only, the
   * conical file is written and no takeoff file appears.
   */
  lemma MissingTakeoffSourceStillConvertsConical(d: Disk, project: Projection)
    requires TakeoffSource !in d.files && TakeoffOutput !in d.files
    requires OutputDirMakeable(d)
    requires Converts(d, project, ConicalSource)
    requires OutputWritable(d, ConicalOutput)
    ensures RunScript(d, project).Finished?
    ensures RunScript(d, project).verdict == ConicalOnly
    ensures ConicalOutput in RunScript(d, project).disk.files
    ensures TakeoffOutput !in RunScript(d, project).disk.files
  {
  }

  /**
   * Three projectable polygons in UTM zone 32N without a height column
   * become three WGS84 features, each 100 m high and carrying the takeoff
   * literals, and the report names only polygons.
   */
  lemma ThreeUtmPolygonsScenario(d: Disk, project: Projection, ds: Dataset)
    requires ReadFile(d, TakeoffSource) == Success(ds)
    requires |ds.features| == 3
    requires forall i :: 0 <= i < 3 ==> ds.features[i].geometry.kind == Polygon
    requires ds.crs == Some(Epsg(32632)) && HeightColumn !in ds.columns
    requires forall i :: 0 <= i < 3 ==> Projectable(project, Epsg(32632), ds.features[i])
    requires OutputDirMakeable(d)
    requires OutputWritable(d, TakeoffOutput)
    ensures ConvertTakeoff(d, project).Succeeded()
    ensures ConvertTakeoff(d, project).result.value.features == 3
    ensures forall k :: k in ConvertTakeoff(d, project).result.value.geometryTypes <==> k == Polygon
    ensures var out := ConvertTakeoff(d, project).disk.files[TakeoffOutput];
            && |out.features| == 3
            && forall i :: 0 <= i < 3 ==>
                 && out.features[i].attributes[HeightColumn] == Int(100)
                 && Described(out.features[i].attributes, TakeoffTags)
  {
  }

  /**
   * `makedirs` outside the `try` raises when `data` is read-only and
   * `data/processed` is missing, so the script stops before either
   * conversion's verdict.
   */
  lemma ReadOnlyDataDirCrashes(project: Projection)
    ensures RunScript(Disk(map[], {"data"}, {"data"}), project).Crashed?
  {
  }
}

=== FILE: wrappers.dfy ===
/**
 * Optional values and success/failure results, usable with `:-`.
 */
module Wrappers {

  /** A value that may be missing: JavaScript's undefined/null, or an absent CRS. */
  datatype Option<+T> = None | Some(value: T)

  /** The outcome of a step that either yields a value or raises an error. */
  datatype Result<+T, +E> = Success(value: T) | Failure(error: E) {

    predicate IsFailure() {
      Failure?
    }

    function PropagateFailure<U>(): Result<U, E>
      requires Failure?
    {
      Failure(error)
    }

    function Extract(): T
      requires Success?
    {
      value
    }
  }
}
